=== FILE: README.md ===
# CatastropheSim scheduler and fault model, in Dafny

`CatastropheSim.py` simulates a single CPU that serves a stream of processes
under one of four policies: First-Come-First-Served (FCFS),
Shortest-Job-First (SJF), Round-Robin (RR) with a 0.3 time-unit quantum, and
Preemptive-Priority (PP). A fault injector brings the whole system down at
random times. It then repairs it after a random duration. The simulation
reports mean waiting time, availability and mean time to recovery (MTTR).

This project models the bookkeeping of that program as immutable state and
pure, time-stamped transitions. It then proves properties of those
transitions and of every run built from them.

- `process.dfy` (`Processes`): the process record and its well-formedness.
- `ready_queues.dfy` (`ReadyQueues`): FIFO put/take, SJF minimum-key take,
  and PP deque removal by pid.
- `round_robin.dfy` (`RoundRobinSlices`): the quantum step, slice counting,
  and draining the deque.
- `preemptive_priority.dfy` (`PriorityPreemption`): the demand charged on
  preemption, and the grant order of the priority CPU.
- `faults.dfy` (`Faults`): the fault-injector state machine and the
  availability formula.
- `schedulers.dfy` (`Schedulers`): the four policies as one closed variant.
  It covers `add_process`, the run loop's take, the end of a service,
  `handle_catastrophe` and the recovery check.
- `simulation.dfy` (`Simulation`): the whole state and the six events, the
  invariant every event keeps, and `Run` over an event sequence.
- `run_properties.dfy` (`RunProperties`): properties of whole runs.
- `pid_identity.dfy` (`PidIdentity`): why comparing pids is as good as the
  object identity the program uses. Every run keeps the pids in the tracking
  deque distinct and never holds a pid the generator has not handed out.
  Outside PP it never queues the process that is on the CPU.

SimPy's event engine becomes explicit events. Each event carries its time
and the random values it needs: `Arrive`, `Fail`, `Restore`, `Dispatch`,
`Finish` and `Check`. An event is enabled only if the clock can move to its
time without passing a repair end or service end that is already due. That
is the ordering guarantee of the virtual clock. Times are exact `real`s.

Behaviour of the code that the model keeps as written:

- **SJF ties.** The ready structure is a `simpy.PriorityStore`: a binary heap
  whose items compare on `burst_time_initial` alone. So no tie order among
  equal keys is promised, not even insertion order. The SJF `Dispatch` takes
  the chosen index as a parameter and requires only that its key is minimal.
- **PP catastrophe.** Only requests still waiting for the CPU are
  interrupted. A process is removed from `active_processes` as soon as it is
  granted (`CatastropheSim.py:280`), and PP never sets
  `running_process_event`. So the process holding the CPU keeps running
  through the outage and completes. `HandleCatastrophe` states this.
- **Preempted PP processes are not served again.** The preempted activity
  ends (`CatastropheSim.py:302-306`). The process stays in the tracking
  deque until the next catastrophe clears it. While it is there, the deque
  is non-empty, so the recovery check cannot close a recovery window.
- **Recovery samples.** A window closes when the CPU is idle and the ready
  structure is empty. Its length is recorded only if it exceeds 1e-6. The
  flag is cleared either way.
- **Recovery windows start drained.** Under FCFS, SJF and Round-Robin the
  catastrophe empties the scheduler, and nothing is admitted while the
  system is down. So the scheduler is drained at the restoration instant
  (`DrainedAtRestoration`). The window closes at the first recovery check
  that finds it drained. The generator and the run loop poll on separate
  schedules, so an arrival can land before that check. The check then
  leaves the window open, and further arrivals can postpone its closing
  indefinitely (`BusyCheckKeepsWindowOpen`).

## Model

| member | source | states |
|---|---|---|
| Processes.NewProcess | CatastropheSim.py:25-30 | A new process owes its whole demand, has a priority in [1,10], and arrives at the current time. |
| ReadyQueues.Put | CatastropheSim.py:154 | `put`/`append` adds exactly the new process at the tail and keeps everything before it. |
| ReadyQueues.Take | CatastropheSim.py:206 | `get`/`popleft` on a non-empty queue returns the head, and the queue behind it is the rest in order. |
| ReadyQueues.FifoServesInArrivalOrder | CatastropheSim.py:152-154 | For any interleaving of `put` and `get` on the FCFS store (or `append`/`popleft` on the RR deque), the processes served and then those still queued are exactly the arrivals in arrival order. |
| ReadyQueues.SelectShortest | CatastropheSim.py:165-168 | A non-empty SJF store always has an item of minimal `burst_time_initial` to hand out. |
| ReadyQueues.TakeShortest | CatastropheSim.py:124-125 | An SJF `get` takes one item out of the store, as a multiset. That item is no longer than anything left behind. |
| ReadyQueues.DrainShortestIsSorted | CatastropheSim.py:165-168 | Draining an SJF store with any allowed tie choices serves each queued process exactly once, in non-decreasing initial demand. |
| ReadyQueues.RemovePid | CatastropheSim.py:291-292 | `deque.remove` on a completed process drops exactly the first entry with its id when it is tracked, and leaves the deque unchanged otherwise. |
| ReadyQueues.Refresh | CatastropheSim.py:303-304 | After a preemption every entry keeps its id in place and entries of other processes are untouched. When the refreshed process is its tracked entries charged for service, every entry only loses demand. |
| RoundRobinSlices.TimeToRun | CatastropheSim.py:225 | A slice is `min(RR_QUANTUM, remaining)`: at most one quantum, at most the demand owed, and equal to one of them. |
| RoundRobinSlices.ServeSlice | CatastropheSim.py:225-227 | A slice keeps the remaining demand within [0, previous]. It charges at most one quantum. Demand stays owed exactly when more than one quantum was owed. |
| RoundRobinSlices.EndSlice | CatastropheSim.py:227-232 | After a slice, the process is appended at the tail of the deque exactly when it owed more than one quantum. Otherwise it completes and the deque is unchanged. |
| RoundRobinSlices.SlicesCoverDemand | CatastropheSim.py:225-232 | A demand d > 0 is served in ⌈d/0.3⌉ slices, each between 0 and one quantum long, whose lengths sum to d. |
| RoundRobinSlices.NoFirstAfterService | CatastropheSim.py:219-224 | Once a process has been served at all, none of its later slices records a wait time. |
| RoundRobinSlices.WaitRecordedOnce | CatastropheSim.py:219-221 | An unserved process records its wait on its first slice and on no later one. |
| RoundRobinSlices.DrainDeque | CatastropheSim.py:202-232 | With no arrivals and no faults, the RR loop serves exactly the deque's total demand, in Σ⌈dᵢ/0.3⌉ slices. |
| PriorityPreemption.Preempt | CatastropheSim.py:287-304 | A preempted holder's remaining demand drops by exactly the time it executed, and stays within [0, previous]. |
| PriorityPreemption.NextGrant | CatastropheSim.py:275-278 | A freed priority CPU goes to the waiting request with the smallest priority number, and to the earliest of equals. |
| PriorityPreemption.GrantOutranksRest | CatastropheSim.py:275-280 | The request granted is at least as urgent as every request still waiting. |
| Faults.Initial | CatastropheSim.py:17-19 | A run starts operational with zero downtime. |
| Faults.InjectFault | CatastropheSim.py:61-65 | A fault is injected only when the system is operational. It takes the system down until `now + repair`. Downtime and restoration time are not touched. |
| Faults.Restore | CatastropheSim.py:67-73 | After a repair the system is operational again. Downtime grows by exactly the repair duration, and the restoration time is the repair's end. |
| Faults.FailThenRestore | CatastropheSim.py:57-73 | A full failure/repair cycle adds exactly `repair` to downtime, sets the restoration time to `now + repair`, and keeps downtime ≤ last restoration ≤ now. |
| Faults.Availability | CatastropheSim.py:335 | Availability is in [0,100] when 0 ≤ downtime ≤ duration. It is 100 iff there was no downtime. |
| Schedulers.Create | CatastropheSim.py:80-85 | A new scheduler of any policy has an empty ready structure, no waiting request, an idle CPU and no recovery in progress. |
| Schedulers.ServiceLength | CatastropheSim.py:225-226 | A service lasts between 0 and the initial demand. Under RR it is exactly `min(RR_QUANTUM, remaining)`: at most one quantum, at most the remaining demand, and equal to one of them. Under PP it is the remaining demand (line 288); under FCFS and SJF an unserved process runs its whole burst (line 144). |
| Schedulers.AddProcess | CatastropheSim.py:241-245 | FCFS/SJF/RR append the process and change nothing else. PP also tracks it and requests the CPU: it takes a free CPU with no request left waiting, or preempts a strictly less urgent holder (charging that holder its elapsed time), with wait 0; otherwise it waits. |
| Schedulers.TakeNext | CatastropheSim.py:124-125 | FCFS/RR take the head of the queue. SJF takes the chosen minimal-key item. Exactly that item leaves the ready structure. |
| Schedulers.Dispatch | CatastropheSim.py:135-141 | The run loop grants the CPU to the next process. FCFS/SJF record a wait of `now − arrival` ≥ 0 on every grant; RR records it only when `remaining == initial`. |
| Schedulers.GrantNext | CatastropheSim.py:278-283 | When a PP CPU is freed, the next request is granted and leaves the waiting requests. Its wait `now − arrival` ≥ 0 is recorded. |
| Schedulers.Release | CatastropheSim.py:288-292 | A completing PP process leaves the tracking deque. The CPU becomes idle exactly when no request is waiting. |
| Schedulers.Finish | CatastropheSim.py:226-232 | At a service's due time, FCFS/SJF complete, RR charges the slice and requeues if demand remains, and PP releases the CPU. |
| Schedulers.HandleCatastrophe | CatastropheSim.py:96-99 | After a catastrophe, under every policy, the ready structure and waiting requests are empty and `is_recovering` is false. FCFS/SJF/RR interrupt the running process; PP interrupts only the waiting requests and keeps the holder. No process is altered. |
| Schedulers.CatastropheKeepsValid | CatastropheSim.py:156-158 | Replacing the ready structure after a catastrophe keeps the scheduler valid. |
| Schedulers.RecoveryCheck | CatastropheSim.py:114-122 | A sample `now − last_restoration` is recorded iff recovering, CPU idle, ready structure empty, and the window exceeds 1e-6. The flag then clears; otherwise nothing changes. |
| Simulation.Init | CatastropheSim.py:14-19 | A run starts at time 0 with pid counter 0, an empty scheduler, the operational initial fault state and empty metrics, and satisfies the invariant. |
| Simulation.StepArrive | CatastropheSim.py:37-50 | Arrivals are admitted only while operational. The new process, with the next pid, is handed to `AddProcess`, whose wait sample is recorded. The step keeps the invariant and touches no fault state or recovery sample. |
| Simulation.StepFail | CatastropheSim.py:57-65 | A catastrophe applies `InjectFault` (down until `at + repair`, downtime and restoration time untouched) and `handle_catastrophe`, and leaves the pid counter alone. It keeps the invariant, including "down implies nothing queued". |
| Simulation.StepRestore | CatastropheSim.py:67-73 | The repair's end makes the system operational, adds exactly the repair to downtime, sets the restoration time to now, and sets `is_recovering`. The pid counter and the metrics are unchanged. |
| Simulation.StepDispatch | CatastropheSim.py:206-207 | Taking work applies the scheduler's `Dispatch` and records its wait sample. It keeps the invariant, so every recorded wait time is ≥ 0. Only the generator changes the pid counter, so it stays as it was. |
| Simulation.StepFinish | CatastropheSim.py:144-145 | A service end happens at the due time, applies the scheduler's `Finish` and records its wait sample. It keeps the invariant. Only the generator changes the pid counter, so it stays as it was. |
| Simulation.StepCheck | CatastropheSim.py:260-268 | The recovery check applies `RecoveryCheck` and records its sample. It keeps the invariant, so every recovery sample exceeds 1e-6. Only the generator changes the pid counter, so it stays as it was. |
| Simulation.Step | CatastropheSim.py:14-19 | Under every event, the clock never goes back, total downtime never decreases, and wait and recovery samples are only appended. |
| Simulation.Run | CatastropheSim.py:319-322 | Every run of enabled events keeps the invariant, with monotone clock and downtime and append-only metrics. |
| RunProperties.StepRecoveryBound | CatastropheSim.py:191-200 | One event adds at most one to (recovery samples + recovering flag), and only if it is a restoration. |
| RunProperties.RecoveryBound | CatastropheSim.py:260-268 | Over any run, (recovery samples + recovering flag) grows by at most the number of restorations. |
| RunProperties.AtMostOneSamplePerRestoration | CatastropheSim.py:114-122 | A run records at most one recovery time per restoration. It records none if the system never comes back. |
| RunProperties.DowntimeAccounting | CatastropheSim.py:67-70 | Downtime plus the repair in progress equals the sum of all drawn repairs. |
| RunProperties.FailuresAndRestorationsAlternate | CatastropheSim.py:57-73 | Every restoration ends the outage of exactly one catastrophe: restorations plus an outage in progress equal catastrophes plus an outage at the start. |
| RunProperties.DrainedAtRestoration | CatastropheSim.py:114-122 | Under FCFS, SJF and RR the scheduler is drained and recovering at restoration, so a check at that instant closes the window without a sample. |
| RunProperties.BusyCheckKeepsWindowOpen | CatastropheSim.py:114-122 | A recovery check that finds the scheduler still holding work records nothing and leaves the window open. |
| RunProperties.DowntimeIsCompletedRepairs | CatastropheSim.py:70 | Total downtime is the sum of the repairs that have finished within the run. |
| RunProperties.AvailabilityWithinBounds | CatastropheSim.py:335 | At any horizon not before the clock, availability is in [0,100]. |
| RunProperties.ReportedAvailabilityWithinBounds | CatastropheSim.py:335 | The availability reported over the fixed horizon `SIM_DURATION` lies in [0,100] for every run that ends within that horizon. |
| RunProperties.NoRepairFullAvailability | CatastropheSim.py:67-70 | A run in which no repair has completed has zero downtime and availability 100, even if a catastrophe is still under repair at its end. |
| RunProperties.NoFailureFullAvailability | CatastropheSim.py:57-73 | A run without catastrophes has zero downtime, no recovery sample, and availability 100. |
| RunProperties.CompletedRepairs | CatastropheSim.py:67-70 | When every catastrophe has been followed by its restoration, the system is up and total downtime is the sum of all drawn repairs. |
| RunProperties.SingleCatastrophe | CatastropheSim.py:67-70 | With one catastrophe of repair D that completes, downtime is D and availability × horizon = 100 × (horizon − D). |
| RunProperties.NoArrivalNoWaits | CatastropheSim.py:37-50 | Without arrivals, the scheduler stays empty and no wait time is recorded. |
| RunProperties.IdleRun | CatastropheSim.py:329-342 | With no arrivals and no catastrophes, no wait or recovery time is recorded and availability is 100. |
| RunProperties.RemainingNeverIncreases | CatastropheSim.py:225-227 | After any event, every process held is one held before with no more demand owed, or else the new arrival, which owes its whole demand. |
| RunProperties.ArriveCharges | CatastropheSim.py:303-304 | After an arrival, under PP preemption too, every process held was already held with at least as much demand owed, or else it is the newcomer. |
| RunProperties.FinishCharges | CatastropheSim.py:226-232 | After a service end, every process held was already held with at least as much demand owed. |
| PidIdentity.RemoveDropsProcess | CatastropheSim.py:291-292 | In a deque with distinct pids, removing by pid removes the process entirely and keeps the pids distinct, as removing the object does. |
| PidIdentity.StepKeepsTracked | CatastropheSim.py:35-50 | Every event keeps the deque's pids distinct and every held pid at most the generator's counter. Outside PP it keeps the running process out of the ready structure. |
| PidIdentity.PidsIdentifyProcesses | CatastropheSim.py:303-304 | In every run from the start, the tracking deque holds each pid at most once and every held pid has been handed out. Outside PP, the running process is not also queued. With `RemoveDropsProcess` and the in-place pids of `Refresh`, removing or refreshing by pid therefore touches exactly the one process object the program updates or removes. |

## Left out

- SimPy internals are not modelled: the `Resource`, `PreemptiveResource`, `Store` and `PriorityStore` code, and generator suspension. Their effect is written as explicit events. The order of events due at the same instant is left open, as is the exact time a polling loop reaches its next check.
- The 0.1 and 0.01 polling intervals: the model lets `Arrive`, `Dispatch` and `Check` happen at any time the clock may reach, so the properties hold for every polling schedule.
- Random draws (`expovariate`, `randint`) become event parameters. The rate constants `LAMBDA`, `MU`, `XI` and `BETA` only shape those draws, so they are not modelled.
- A blocked FCFS/SJF run loop is not modelled. The loop can sit in `get()` on the old store when `handle_catastrophe` replaces it (`CatastropheSim.py:124, 158, 172`), and would never see later arrivals. Modelling that requires SimPy's blocking semantics. The model's `Dispatch` takes from the current ready structure.
- Console logging, `statistics.mean`, and the `__main__` setup and report are not modelled. The exception is the availability formula.
- Floating-point rounding is not modelled: times are exact reals. The 1e-6 recovery threshold is kept as a constant.
- The simulation horizon is a parameter of the availability lemmas, not a stop event. `SIM_DURATION` is the constant `Faults.SimDuration`, the horizon of `ReportedAvailabilityWithinBounds`.
- ReadyQueues.DrainShortestIsSorted: it does not promise an order among processes of equal initial demand, because the heap in `PriorityStore` does not define one.
- Simulation.Run: it returns `None` for a sequence in which some event is not enabled. Only sequences the virtual clock could produce are runs.

=== FILE: faults.dfy ===
/**
 * The fault injector and the availability figure. The injector alternates
 * between an operational phase and a repair of a drawn duration; the time to
 * failure and the repair duration are random draws and come in as parameters.
 */
module Faults {

  /** Recovery windows no longer than this are taken for float noise and not recorded. */
  const RecoveryThreshold: real := 0.000001

  /** SIM_DURATION: the horizon of a run. */
  const SimDuration: real := 10000000.0

  datatype Mode =
    | Up
    | Down(since: real, repair: real)   // failed at `since`, repaired `repair` later

  datatype FaultState = FaultState(
    mode: Mode,
    totalDowntime: real,      // sum of the completed repairs
    lastRestoration: real)    // time of the latest restoration
  {
    predicate Operational() {
      mode.Up?
    }
  }

  /** The state at the start of a run: operational, no downtime. */
  function Initial(): (f: FaultState)
    ensures f.Operational() && f.totalDowntime == 0.0
  {
    FaultState(Up, 0.0, 0.0)
  }

  /** When the repair of the current outage completes. */
  function RestorationTime(f: FaultState): real
    requires f.mode.Down?
  {
    f.mode.since + f.mode.repair
  }

  /**
   * The time to failure has elapsed at `now`. A catastrophe happens only if
   * the system is operational; it then stays down for `repair` time units.
   * Downtime and the restoration time are not touched until the repair ends.
   */
  function InjectFault(f: FaultState, now: real, repair: real): (r: FaultState)
    requires repair >= 0.0
    ensures !f.Operational() ==> r == f
    ensures f.Operational() ==> !r.Operational() && RestorationTime(r) == now + repair
    ensures r.totalDowntime == f.totalDowntime && r.lastRestoration == f.lastRestoration
  {
    if f.Operational() then f.(mode := Down(now, repair)) else f
  }

  /**
   * The repair has ended: the system is operational again, the repair's whole
   * duration is added to the downtime, and the restoration time is now.
   */
  function Restore(f: FaultState): (r: FaultState)
    requires f.mode.Down?
    ensures r.Operational()
    ensures r.totalDowntime == f.totalDowntime + f.mode.repair
    ensures r.lastRestoration == RestorationTime(f)
  {
    FaultState(Up, f.totalDowntime + f.mode.repair, f.mode.since + f.mode.repair)
  }

  /**
   * What holds of the injector at every instant `now` of a run: downtime is
   * bounded by the latest restoration, which lies in the past; an outage in
   * progress started after it and has not outlived its repair.
   */
  predicate Consistent(f: FaultState, now: real) {
    && 0.0 <= f.totalDowntime <= f.lastRestoration <= now
    && (f.mode.Down? ==>
          f.mode.repair >= 0.0 && f.lastRestoration <= f.mode.since <= now <= RestorationTime(f))
  }

  /**
   * One failure and its repair: starting operational at `now`, the system
   * comes back operational `repair` later, with exactly `repair` more
   * downtime, and the injector's bookkeeping stays consistent.
   */
  lemma FailThenRestore(f: FaultState, now: real, repair: real)
    requires Consistent(f, now) && f.Operational() && repair >= 0.0
    ensures var r := Restore(InjectFault(f, now, repair));
            && r.Operational()
            && r.totalDowntime == f.totalDowntime + repair
            && r.lastRestoration == now + repair
            && Consistent(r, now + repair)
  {
  }

  /** `(SIM_DURATION - total_downtime) / SIM_DURATION * 100`, for a horizon `duration`. */
  function Availability(duration: real, downtime: real): (a: real)
    requires duration > 0.0
    ensures 0.0 <= downtime <= duration ==> 0.0 <= a <= 100.0
    ensures a == 100.0 <==> downtime == 0.0
    ensures a * duration == 100.0 * (duration - downtime)
  {
    (duration - downtime) / duration * 100.0
  }
}

=== FILE: pid_identity.dfy ===
/**
 * Process identity. The schedulers hold process objects and compare them by
 * identity: the Preemptive-Priority release tests `process in` the tracking
 * deque and removes it, and a preemption updates the one object the deque
 * also holds. The model compares ids instead. The two agree because every
 * run keeps the ids of the tracked deque distinct, never holds an id the
 * generator has not handed out, and (outside Preemptive-Priority) never
 * queues the process that is on the CPU.
 */
module PidIdentity {
  import opened Wrappers
  import opened Processes
  import opened ReadyQueues
  import RR = RoundRobinSlices
  import PP = PriorityPreemption
  import opened Schedulers
  import opened Simulation

  /** What the ids of a state satisfy, so that an id stands for one process object. */
  predicate PidsTracked(s: Sim) {
    var sc := s.sched;
    && UniquePids(sc.ready)
    && PidsAtMost(sc.ready, s.pidCounter) && PidsAtMost(sc.requests, s.pidCounter)
    && (sc.running.Some? ==> sc.running.value.proc.pid <= s.pidCounter)
    && (sc.policy != PreemptivePriority && sc.running.Some? ==> !HasPid(sc.ready, sc.running.value.proc.pid))
  }

  lemma FreshPid(q: seq<Process>, n: nat)
    requires PidsAtMost(q, n)
    ensures !HasPid(q, n + 1)
  {
  }

  /** With distinct ids, removing by id removes the process entirely, as removing the object does. */
  lemma RemoveDropsProcess(q: seq<Process>, pid: nat, n: nat)
    requires UniquePids(q)
    ensures UniquePids(RemovePid(q, pid)) && !HasPid(RemovePid(q, pid), pid)
    ensures PidsAtMost(q, n) ==> PidsAtMost(RemovePid(q, pid), n)
  {
    var r := RemovePid(q, pid);
    if HasPid(q, pid) {
      var i: nat :| IsFirstPid(q, pid, i) && r == q[..i] + q[i + 1..];
      SpliceKeepsPids(q, i, n);
    }
  }

  lemma InitTracked(policy: Policy)
    ensures PidsTracked(Init(policy))
  {
  }

  lemma ArriveKeepsTracked(s: Sim, at: real, burst: real, priority: int)
    requires Inv(s) && Enabled(s, Arrive(at, burst, priority)) && PidsTracked(s)
    ensures PidsTracked(Step(s, Arrive(at, burst, priority)))
  {
    InvLater(s, at);
    var sc := s.sched;
    var n := s.pidCounter;
    var p := NewProcess(n + 1, at, burst, priority);
    var o := AddProcess(sc, p, at);
    var r := Step(s, Arrive(at, burst, priority));
    assert r.sched == o.sched && r.pidCounter == n + 1;
    FreshPid(sc.ready, n);
    if sc.policy == PreemptivePriority && sc.running.Some? && PP.Outranks(p, sc.running.value.proc) {
      var q := Refresh(sc.ready, PP.Preempt(sc.running.value, at));
      assert PidsAtMost(q, n);
      FreshPid(q, n);
      AppendKeepsPids(q, p);
    } else {
      AppendKeepsPids(sc.ready, p);
      if sc.running.Some? {
        AppendHasPid(sc.ready, p, sc.running.value.proc.pid);
      }
    }
  }

  lemma DispatchKeepsTracked(s: Sim, at: real, choice: nat)
    requires Inv(s) && Enabled(s, Dispatch(at, choice)) && PidsTracked(s)
    ensures PidsTracked(Step(s, Dispatch(at, choice)))
  {
    InvLater(s, at);
    var sc := s.sched;
    var o := Schedulers.Dispatch(sc, at, choice);
    assert Step(s, Dispatch(at, choice)).sched == o.sched;
    if sc.policy == Sjf {
      SpliceKeepsPids(sc.ready, choice, s.pidCounter);
    } else {
      assert sc.ready[1..] == sc.ready[..0] + sc.ready[0 + 1..];
      SpliceKeepsPids(sc.ready, 0, s.pidCounter);
    }
  }

  /** Releasing the Preemptive-Priority CPU keeps ids distinct and bounded. */
  lemma ReleaseKeepsPids(sc: Scheduler, t: real, n: nat)
    requires sc.policy == PreemptivePriority && sc.running.Some? && Valid(sc, t)
    requires UniquePids(sc.ready) && PidsAtMost(sc.ready, n) && PidsAtMost(sc.requests, n)
    ensures var r := Release(sc, t).sched;
            && UniquePids(r.ready) && PidsAtMost(r.ready, n) && PidsAtMost(r.requests, n)
            && (r.running.Some? ==> r.running.value.proc.pid <= n)
  {
    var ready := RemovePid(sc.ready, sc.running.value.proc.pid);
    RemoveDropsProcess(sc.ready, sc.running.value.proc.pid, n);
    var r := Release(sc, t).sched;
    assert r.ready == ready;
    if sc.requests != [] {
      var k := PP.NextGrant(sc.requests);
      assert r.running == Some(Slot(sc.requests[k], t));
      assert r.requests == sc.requests[..k] + sc.requests[k + 1..];
      SpliceBounded(sc.requests, k, n);
    } else {
      assert r.requests == sc.requests && r.running.None?;
    }
  }

  lemma FinishKeepsTracked(s: Sim)
    requires Inv(s) && Enabled(s, Finish) && PidsTracked(s)
    ensures PidsTracked(Step(s, Finish))
  {
    var sc := s.sched;
    var t := Due(sc);
    InvLater(s, t);
    var o := Schedulers.Finish(sc);
    assert Step(s, Finish).sched == o.sched && Step(s, Finish).pidCounter == s.pidCounter;
    var h := sc.running.value.proc;
    match sc.policy
    case Fcfs =>
    case Sjf =>
    case RoundRobin =>
      if h.remaining > RR.Quantum {
        AppendKeepsPids(sc.ready, RR.ServeSlice(h));
      }
    case PreemptivePriority =>
      ReleaseKeepsPids(sc, t, s.pidCounter);
  }

  /** Every event keeps the ids tracked. */
  lemma StepKeepsTracked(s: Sim, e: Event)
    requires Inv(s) && Enabled(s, e) && PidsTracked(s)
    ensures PidsTracked(Step(s, e))
  {
    match e
    case Arrive(at, burst, priority) => ArriveKeepsTracked(s, at, burst, priority);
    case Fail(at, repair) =>
    case Restore =>
    case Dispatch(at, choice) => DispatchKeepsTracked(s, at, choice);
    case Finish => FinishKeepsTracked(s);
    case Check(at) =>
  }

  lemma {:induction false} RunKeepsTracked(s: Sim, es: seq<Event>)
    requires Inv(s) && PidsTracked(s) && Run(s, es).Some?
    ensures PidsTracked(Run(s, es).value)
    decreases |es|
  {
    if |es| > 0 {
      StepKeepsTracked(s, es[0]);
      RunKeepsTracked(Step(s, es[0]), es[1..]);
    }
  }

  /**
   * In every run from the start, the tracked deque holds each process at
   * most once, every held id has been handed out, and outside
   * Preemptive-Priority the process on the CPU is not also queued.
   */
  lemma PidsIdentifyProcesses(policy: Policy, es: seq<Event>)
    requires Run(Init(policy), es).Some?
    ensures PidsTracked(Run(Init(policy), es).value)
  {
    InitTracked(policy);
    RunKeepsTracked(Init(policy), es);
  }
}

=== FILE: preemptive_priority.dfy ===
/**
 * The CPU of the Preemptive-Priority policy. Every admitted process requests
 * the CPU at its own priority (1 most urgent). A request strictly more urgent
 * than the holder's preempts the holder, which is charged for the time it
 * ran and then gives up; otherwise the request waits. When the holder
 * finishes, the most urgent waiting request is granted, the earliest among
 * equals.
 */
module PriorityPreemption {
  import opened Processes

  /** `a` would preempt `b`: its priority number is strictly smaller. */
  predicate Outranks(a: Process, b: Process) {
    a.priority < b.priority
  }

  /**
   * The holder `h` is preempted at `now`, before its run of its whole
   * remaining demand has ended: its remaining demand drops by exactly the
   * time it executed.
   */
  function Preempt(h: Slot, now: real): (r: Process)
    requires WellFormed(h.proc)
    requires h.since <= now <= h.since + h.proc.remaining
    ensures WellFormed(r) && SameProcess(h.proc, r)
    ensures r.remaining + (now - h.since) == h.proc.remaining
    ensures 0.0 <= r.remaining <= h.proc.remaining
  {
    h.proc.(remaining := h.proc.remaining - (now - h.since))
  }

  /** Request `k` is the one granted next: most urgent, and earliest among equally urgent ones. */
  predicate IsNextGrant(requests: seq<Process>, k: nat) {
    && k < |requests|
    && (forall j :: 0 <= j < |requests| ==> requests[k].priority <= requests[j].priority)
    && (forall j :: 0 <= j < k ==> requests[k].priority < requests[j].priority)
  }

  /** The waiting request the CPU is granted to when it is released. */
  function NextGrant(requests: seq<Process>): (k: nat)
    requires |requests| > 0
    ensures IsNextGrant(requests, k)
  {
    if |requests| == 1 then 0
    else
      var n := |requests| - 1;
      var k := NextGrant(requests[..n]);
      assert forall j :: 0 <= j < n ==> requests[..n][j] == requests[j];
      if requests[n].priority < requests[k].priority then n else k
  }

  /** The holder is no less urgent than any waiting request: none of them could preempt it. */
  predicate HolderOutranksWaiters(h: Process, requests: seq<Process>) {
    forall j :: 0 <= j < |requests| ==> h.priority <= requests[j].priority
  }

  /** Granting request `k` keeps the new holder at least as urgent as those still waiting. */
  lemma GrantOutranksRest(requests: seq<Process>, k: nat)
    requires IsNextGrant(requests, k)
    ensures HolderOutranksWaiters(requests[k], requests[..k] + requests[k + 1..])
  {
    var rest := requests[..k] + requests[k + 1..];
    forall j | 0 <= j < |rest|
      ensures requests[k].priority <= rest[j].priority
    {
      if j < k {
        assert rest[j] == requests[j];
      } else {
        assert rest[j] == requests[j + 1];
      }
    }
  }
}

=== FILE: process.dfy ===
/**
 * The unit of work the simulated CPU serves. Times are exact reals; the
 * random draws that give a process its demand and its priority are
 * parameters here.
 */
module Processes {

  /** Priorities are drawn uniformly from [MinPriority, MaxPriority]; 1 is the most urgent. */
  const MinPriority: int := 1
  const MaxPriority: int := 10

  datatype Process = Process(
    pid: nat,          // process id, from the generator's counter
    arrival: real,     // time the process was admitted
    initial: real,     // total CPU demand, fixed at creation
    remaining: real,   // demand still owed
    priority: int)     // lower number = more urgent

  /** What every process the schedulers hold satisfies: the owed demand lies in [0, initial]. */
  predicate WellFormed(p: Process) {
    && 0.0 <= p.remaining <= p.initial
    && MinPriority <= p.priority <= MaxPriority
  }

  /** The process has not been served yet: it still owes its whole demand. */
  predicate Unserved(p: Process) {
    p.remaining == p.initial
  }

  /** `q` is `p` after some service: only the remaining demand may differ. */
  predicate SameProcess(p: Process, q: Process) {
    p.pid == q.pid && p.arrival == q.arrival && p.initial == q.initial && p.priority == q.priority
  }

  /** A new arrival at time `now` with demand `burst` and priority `priority`. */
  function NewProcess(pid: nat, now: real, burst: real, priority: int): (p: Process)
    requires burst >= 0.0
    requires MinPriority <= priority <= MaxPriority
    ensures WellFormed(p) && Unserved(p)
    ensures p.pid == pid && p.arrival == now && p.initial == burst && p.priority == priority
  {
    Process(pid, now, burst, burst, priority)
  }

  /** The process holding the CPU, with the time its current service began. */
  datatype Slot = Slot(proc: Process, since: real)

  /** Every process of `q` is well formed. */
  predicate AllWellFormed(q: seq<Process>) {
    forall i :: 0 <= i < |q| ==> WellFormed(q[i])
  }

  /** Every process of `q` is well formed and was admitted no later than `now`. */
  predicate AllAdmitted(q: seq<Process>, now: real) {
    && AllWellFormed(q)
    && forall i :: 0 <= i < |q| ==> q[i].arrival <= now
  }

  /** Whatever is drawn from an admitted collection is admitted too. */
  lemma AdmittedPart(q: seq<Process>, r: seq<Process>, now: real)
    requires AllAdmitted(q, now)
    requires forall x :: x in r ==> x in q
    ensures AllAdmitted(r, now)
  {
    forall i | 0 <= i < |r|
      ensures WellFormed(r[i]) && r[i].arrival <= now
    {
      assert r[i] in r;
    }
  }
}

=== FILE: ready_queues.dfy ===
/**
 * The ready structures of the four policies, as sequences of processes.
 * FCFS (a SimPy Store) and Round-Robin (a deque) append at the tail and take
 * the head. SJF (a SimPy PriorityStore keyed by the initial demand) hands out
 * an item of minimal key; the store is a binary heap whose items compare on
 * the key alone, so nothing is promised about which of several equal keys
 * comes out first. The Preemptive-Priority deque only needs removal by
 * identity (the pid) and an update of a tracked entry.
 */
module ReadyQueues {
  import opened Processes

  // ---------------------------------------------------------------- FIFO

  /** `put` / `append`: the new process goes behind everything already queued. */
  function Put(q: seq<Process>, p: Process): (r: seq<Process>)
    ensures |r| == |q| + 1
    ensures r[..|q|] == q && r[|q|] == p
  {
    q + [p]
  }

  /** `get` / `popleft` on a non-empty queue: the head, and the queue behind it. */
  function Take(q: seq<Process>): (r: (Process, seq<Process>))
    requires |q| > 0
    ensures [r.0] + r.1 == q
  {
    (q[0], q[1..])
  }

  /** One operation on a FIFO ready queue: an arrival, or the run loop taking work. */
  datatype QueueOp = Enqueue(p: Process) | Dequeue

  /** The processes enqueued by `ops`, in order. */
  function Enqueued(ops: seq<QueueOp>): seq<Process> {
    if |ops| == 0 then []
    else
      var last := ops[|ops| - 1];
      Enqueued(ops[..|ops| - 1]) + (if last.Enqueue? then [last.p] else [])
  }

  /**
   * Replays `ops` on an empty queue and returns (queue, served). A `Dequeue`
   * on an empty queue takes nothing: the run loop waits for work instead.
   */
  function Replay(ops: seq<QueueOp>): (seq<Process>, seq<Process>) {
    if |ops| == 0 then ([], [])
    else
      var (q, served) := Replay(ops[..|ops| - 1]);
      match ops[|ops| - 1]
      case Enqueue(p) => (Put(q, p), served)
      case Dequeue =>
        if |q| == 0 then (q, served)
        else
          var (head, rest) := Take(q);
          (rest, served + [head])
  }

  /**
   * First come, first served: under any interleaving of arrivals and takes,
   * the processes served so far followed by those still queued are exactly
   * the arrivals, in arrival order.
   */
  lemma {:induction false} FifoServesInArrivalOrder(ops: seq<QueueOp>)
    ensures Replay(ops).1 + Replay(ops).0 == Enqueued(ops)
  {
    if |ops| > 0 {
      var init := ops[..|ops| - 1];
      FifoServesInArrivalOrder(init);
      var (q, served) := Replay(init);
      match ops[|ops| - 1]
      case Enqueue(p) =>
        assert Replay(ops) == (Put(q, p), served);
        assert Enqueued(ops) == Enqueued(init) + [p];
        assert served + Put(q, p) == (served + q) + [p];
      case Dequeue =>
        assert Enqueued(ops) == Enqueued(init);
        if |q| > 0 {
          assert Replay(ops) == (q[1..], served + [q[0]]);
          assert (served + [q[0]]) + q[1..] == served + q;
        }
    }
  }

  // ----------------------------------------------------------------- SJF

  /** Index `k` holds a process of minimal initial demand. */
  predicate IsShortest(q: seq<Process>, k: nat) {
    k < |q| && forall j :: 0 <= j < |q| ==> q[k].initial <= q[j].initial
  }

  /** A non-empty store always has an item the priority store may hand out. */
  method SelectShortest(q: seq<Process>) returns (k: nat)
    requires |q| > 0
    ensures IsShortest(q, k)
  {
    k := 0;
    var i := 1;
    while i < |q|
      invariant 1 <= i <= |q|
      invariant k < i
      invariant forall j :: 0 <= j < i ==> q[k].initial <= q[j].initial
    {
      if q[i].initial < q[k].initial {
        k := i;
      }
      i := i + 1;
    }
  }

  /** Removes the item at `k`: the item, and the store without it. */
  function TakeAt(q: seq<Process>, k: nat): (r: (Process, seq<Process>))
    requires k < |q|
    ensures r.0 == q[k] && |r.1| == |q| - 1 && r.1 == q[..k] + q[k + 1..]
    ensures multiset(r.1) + multiset{r.0} == multiset(q)
  {
    assert q == q[..k] + [q[k]] + q[k + 1..];
    (q[k], q[..k] + q[k + 1..])
  }

  /** SJF `get`: the item taken is no longer than anything left behind. */
  function TakeShortest(q: seq<Process>, k: nat): (r: (Process, seq<Process>))
    requires IsShortest(q, k)
    ensures multiset(r.1) + multiset{r.0} == multiset(q)
    ensures forall x :: x in r.1 ==> r.0.initial <= x.initial
  {
    var r := TakeAt(q, k);
    assert forall x :: x in r.1 ==> x in multiset(q);
    r
  }

  /** `picks` is a sequence of choices an SJF store may make while draining `q`. */
  predicate ShortestPicks(q: seq<Process>, picks: seq<nat>)
    decreases |q|
  {
    && |picks| == |q|
    && (|q| == 0 || (IsShortest(q, picks[0]) && ShortestPicks(TakeAt(q, picks[0]).1, picks[1..])))
  }

  /** The order in which draining `q` with the choices `picks` serves its processes. */
  function DrainShortest(q: seq<Process>, picks: seq<nat>): seq<Process>
    requires ShortestPicks(q, picks)
    decreases |q|
  {
    if |q| == 0 then []
    else
      var (p, rest) := TakeShortest(q, picks[0]);
      [p] + DrainShortest(rest, picks[1..])
  }

  predicate SortedByDemand(q: seq<Process>) {
    forall i, j :: 0 <= i < j < |q| ==> q[i].initial <= q[j].initial
  }

  /** Draining the SJF store serves every queued process exactly once. */
  lemma {:induction false} DrainShortestPermutes(q: seq<Process>, picks: seq<nat>)
    requires ShortestPicks(q, picks)
    ensures multiset(DrainShortest(q, picks)) == multiset(q)
    decreases |q|
  {
    if |q| > 0 {
      var (p, rest) := TakeShortest(q, picks[0]);
      DrainShortestPermutes(rest, picks[1..]);
      assert DrainShortest(q, picks) == [p] + DrainShortest(rest, picks[1..]);
    }
  }

  lemma SortedCons(p: Process, tail: seq<Process>)
    requires SortedByDemand(tail)
    requires forall j :: 0 <= j < |tail| ==> p.initial <= tail[j].initial
    ensures SortedByDemand([p] + tail)
  {
    var d := [p] + tail;
    forall i, j | 0 <= i < j < |d|
      ensures d[i].initial <= d[j].initial
    {
      assert d[j] == tail[j - 1];
      if i > 0 {
        assert d[i] == tail[i - 1];
      }
    }
  }

  /**
   * Shortest job first: whichever of the equal-key items the store picks,
   * draining it serves every queued process exactly once, in non-decreasing
   * order of initial demand.
   */
  lemma {:induction false} DrainShortestIsSorted(q: seq<Process>, picks: seq<nat>)
    requires ShortestPicks(q, picks)
    ensures multiset(DrainShortest(q, picks)) == multiset(q)
    ensures SortedByDemand(DrainShortest(q, picks))
    decreases |q|
  {
    DrainShortestPermutes(q, picks);
    if |q| > 0 {
      var (p, rest) := TakeShortest(q, picks[0]);
      DrainShortestIsSorted(rest, picks[1..]);
      var tail := DrainShortest(rest, picks[1..]);
      assert DrainShortest(q, picks) == [p] + tail;
      forall j | 0 <= j < |tail|
        ensures p.initial <= tail[j].initial
      {
        assert tail[j] in multiset(rest);
      }
      SortedCons(p, tail);
    }
  }

  // ------------------------------------------------------ tracked deque

  /** Some entry of `q` has id `pid`. */
  predicate HasPid(q: seq<Process>, pid: nat) {
    exists i :: 0 <= i < |q| && q[i].pid == pid
  }

  /**
   * No two entries of `q` share an id. The source compares process objects;
   * under this predicate an id stands for exactly one entry.
   */
  predicate UniquePids(q: seq<Process>) {
    forall i, j :: 0 <= i < j < |q| ==> q[i].pid != q[j].pid
  }

  /** Every id in `q` has been handed out by a counter that stands at `n`. */
  predicate PidsAtMost(q: seq<Process>, n: nat) {
    forall i :: 0 <= i < |q| ==> q[i].pid <= n
  }

  /** Taking entry `k` out hands out no new id. */
  lemma SpliceBounded(q: seq<Process>, k: nat, n: nat)
    requires k < |q| && PidsAtMost(q, n)
    ensures PidsAtMost(q[..k] + q[k + 1..], n)
  {
    var r := q[..k] + q[k + 1..];
    assert forall i :: 0 <= i < |r| ==> r[i] == q[if i < k then i else i + 1];
  }

  /** Taking entry `k` out keeps the ids distinct and bounded, and its id leaves the queue. */
  lemma SpliceKeepsPids(q: seq<Process>, k: nat, n: nat)
    requires k < |q| && UniquePids(q)
    ensures UniquePids(q[..k] + q[k + 1..]) && !HasPid(q[..k] + q[k + 1..], q[k].pid)
    ensures PidsAtMost(q, n) ==> PidsAtMost(q[..k] + q[k + 1..], n)
  {
    var r := q[..k] + q[k + 1..];
    assert forall i :: 0 <= i < |r| ==> r[i] == q[if i < k then i else i + 1];
  }

  /** Appending a process whose id is not queued keeps the ids distinct. */
  lemma AppendKeepsPids(q: seq<Process>, p: Process)
    requires UniquePids(q) && !HasPid(q, p.pid)
    ensures UniquePids(q + [p])
  {
    assert forall i :: 0 <= i < |q| ==> (q + [p])[i] == q[i];
  }

  /** Appending `p` adds no id but its own. */
  lemma AppendHasPid(q: seq<Process>, p: Process, pid: nat)
    requires pid != p.pid
    ensures HasPid(q + [p], pid) <==> HasPid(q, pid)
  {
    if HasPid(q + [p], pid) {
      var i :| 0 <= i < |q + [p]| && (q + [p])[i].pid == pid;
      assert q[i].pid == pid;
    }
    if HasPid(q, pid) {
      var i :| 0 <= i < |q| && q[i].pid == pid;
      assert (q + [p])[i].pid == pid;
    }
  }

  /** Entry `i` is the first entry of `q` with id `pid`. */
  predicate IsFirstPid(q: seq<Process>, pid: nat, i: nat) {
    && i < |q| && q[i].pid == pid
    && forall j :: 0 <= j < i ==> q[j].pid != pid
  }

  /** The first entry with id `pid` behind a head of another id is one further in. */
  lemma FirstPidBehindHead(q: seq<Process>, pid: nat, i: nat)
    requires |q| > 0 && q[0].pid != pid && IsFirstPid(q[1..], pid, i)
    ensures IsFirstPid(q, pid, i + 1)
    ensures [q[0]] + (q[1..][..i] + q[1..][i + 1..]) == q[..i + 1] + q[i + 2..]
  {
    forall j | 0 <= j < i + 1
      ensures q[j].pid != pid
    {
      if j > 0 {
        assert q[j] == q[1..][j - 1];
      }
    }
  }

  /** `deque.remove`: drops the first entry with id `pid`, if there is one. */
  function RemovePid(q: seq<Process>, pid: nat): (r: seq<Process>)
    ensures !HasPid(q, pid) ==> r == q
    ensures HasPid(q, pid) ==> |r| == |q| - 1
    ensures HasPid(q, pid) ==> exists i: nat :: IsFirstPid(q, pid, i) && r == q[..i] + q[i + 1..]
    ensures multiset(r) <= multiset(q)
  {
    if |q| == 0 then []
    else if q[0].pid == pid then
      assert q == [q[0]] + q[1..];
      assert IsFirstPid(q, pid, 0) && q[1..] == q[..0] + q[0 + 1..];
      q[1..]
    else
      assert HasPid(q, pid) ==> HasPid(q[1..], pid) by {
        if HasPid(q, pid) {
          var i :| 0 <= i < |q| && q[i].pid == pid;
          assert q[1..][i - 1].pid == pid;
        }
      }
      assert !HasPid(q, pid) ==> !HasPid(q[1..], pid) by {
        if HasPid(q[1..], pid) {
          var i :| 0 <= i < |q[1..]| && q[1..][i].pid == pid;
          assert q[i + 1].pid == pid;
        }
      }
      assert q == [q[0]] + q[1..];
      var rest := RemovePid(q[1..], pid);
      assert multiset([q[0]] + rest) == multiset{q[0]} + multiset(rest);
      assert HasPid(q, pid) ==> exists i: nat :: IsFirstPid(q, pid, i) && [q[0]] + rest == q[..i] + q[i + 1..] by {
        if HasPid(q, pid) {
          var i: nat :| IsFirstPid(q[1..], pid, i) && rest == q[1..][..i] + q[1..][i + 1..];
          FirstPidBehindHead(q, pid, i);
        }
      }
      [q[0]] + rest
  }

  /**
   * The entry of the tracked process `p` now reflects its latest state.
   * Every entry keeps its id in place, and entries of other processes are
   * untouched. When `p` is its entries charged for service, every entry
   * only loses demand.
   */
  function Refresh(q: seq<Process>, p: Process): (r: seq<Process>)
    ensures |r| == |q|
    ensures forall i :: 0 <= i < |q| ==> r[i].pid == q[i].pid
    ensures forall i :: 0 <= i < |q| && q[i].pid != p.pid ==> r[i] == q[i]
    ensures forall i :: 0 <= i < |q| && q[i].pid == p.pid ==> r[i] == p
    ensures (forall i :: 0 <= i < |q| && q[i].pid == p.pid ==> SameProcess(q[i], p) && p.remaining <= q[i].remaining) ==>
              forall i :: 0 <= i < |q| ==> SameProcess(q[i], r[i]) && r[i].remaining <= q[i].remaining
  {
    seq(|q|, i requires 0 <= i < |q| => if q[i].pid == p.pid then p else q[i])
  }
}

=== FILE: round_robin.dfy ===
/**
 * Round-Robin service: each time a process gets the CPU it runs for one
 * slice of at most `Quantum` time units, is charged for that slice, and goes
 * back to the tail of the deque if it still owes demand.
 */
module RoundRobinSlices {
  import opened Processes

  /** RR_QUANTUM. */
  const Quantum: real := 0.3

  /** `min(RR_QUANTUM, remaining)`: the length of the next slice. */
  function TimeToRun(remaining: real): (t: real)
    ensures t <= Quantum && t <= remaining
    ensures t == Quantum || t == remaining
  {
    if Quantum <= remaining then Quantum else remaining
  }

  /** Charges `p` for one slice. */
  function ServeSlice(p: Process): (r: Process)
    requires WellFormed(p)
    ensures WellFormed(r) && SameProcess(p, r)
    ensures 0.0 <= r.remaining <= p.remaining
    ensures p.remaining - r.remaining <= Quantum
    ensures r.remaining > 0.0 <==> p.remaining > Quantum
    ensures r.remaining > 0.0 ==> r.remaining == p.remaining - Quantum
  {
    p.(remaining := p.remaining - TimeToRun(p.remaining))
  }

  /**
   * The end of a slice: the deque `q` the slice left behind, with `p` back at
   * its tail exactly when its demand exceeded one quantum.
   */
  function EndSlice(q: seq<Process>, p: Process): (r: seq<Process>)
    requires WellFormed(p)
    ensures p.remaining > Quantum <==> |r| == |q| + 1
    ensures p.remaining > Quantum ==> r == q + [ServeSlice(p)]
    ensures p.remaining <= Quantum ==> r == q
  {
    var p' := ServeSlice(p);
    if p'.remaining > 0.0 then q + [p'] else q
  }

  /** One served slice: whether it recorded a wait time, and how long it ran. */
  datatype SliceRecord = SliceRecord(first: bool, length: real)

  lemma DropOneQuantum(x: real)
    requires x > Quantum
    ensures ((x - Quantum) / Quantum).Floor == (x / Quantum).Floor - 1
    ensures (x / Quantum).Floor >= 1
  {
    assert (x - Quantum) / Quantum == x / Quantum - 1.0;
  }

  /** The slices `p` receives when nothing else competes and nothing fails, in order. */
  function Slices(p: Process): (r: seq<SliceRecord>)
    requires WellFormed(p)
    decreases (p.remaining / Quantum).Floor
  {
    var here := SliceRecord(Unserved(p), TimeToRun(p.remaining));
    var p' := ServeSlice(p);
    if p'.remaining > 0.0 then
      DropOneQuantum(p.remaining);
      [here] + Slices(p')
    else [here]
  }

  function TotalLength(slices: seq<SliceRecord>): real {
    if |slices| == 0 then 0.0 else slices[0].length + TotalLength(slices[1..])
  }

  /** `⌈x⌉`. */
  function Ceil(x: real): int {
    -((-x).Floor)
  }

  /** How many slices a demand `d` takes: `⌈d / Quantum⌉`, and one (empty) slice for no demand. */
  function SlicesNeeded(d: real): nat {
    if d <= 0.0 then 1
    else
      assert Ceil(d / Quantum) >= 1;
      Ceil(d / Quantum)
  }

  /**
   * Serving a process to completion takes `⌈d / Quantum⌉` slices, each of at
   * most one quantum, whose lengths add up to the demand `d` it still owed.
   */
  lemma {:induction false} SlicesCoverDemand(p: Process)
    requires WellFormed(p)
    ensures |Slices(p)| == SlicesNeeded(p.remaining)
    ensures TotalLength(Slices(p)) == p.remaining
    ensures forall i :: 0 <= i < |Slices(p)| ==> 0.0 <= Slices(p)[i].length <= Quantum
    decreases (p.remaining / Quantum).Floor
  {
    var p' := ServeSlice(p);
    if p'.remaining > 0.0 {
      DropOneQuantum(p.remaining);
      SlicesCoverDemand(p');
      var d := p.remaining;
      assert (-(d - Quantum)) / Quantum == -(d / Quantum) + 1.0;
      assert Ceil((d - Quantum) / Quantum) == Ceil(d / Quantum) - 1;
      assert Slices(p) == [SliceRecord(Unserved(p), Quantum)] + Slices(p');
    } else if p.remaining > 0.0 {
      assert 0.0 < p.remaining / Quantum <= 1.0;
      assert Ceil(p.remaining / Quantum) == 1;
    }
  }

  /** Once a process has been served, no later slice of it records a wait time. */
  lemma {:induction false} NoFirstAfterService(p: Process)
    requires WellFormed(p) && p.remaining < p.initial
    ensures forall i :: 0 <= i < |Slices(p)| ==> !Slices(p)[i].first
    decreases (p.remaining / Quantum).Floor
  {
    var p' := ServeSlice(p);
    if p'.remaining > 0.0 {
      DropOneQuantum(p.remaining);
      NoFirstAfterService(p');
      assert Slices(p) == [SliceRecord(Unserved(p), TimeToRun(p.remaining))] + Slices(p');
    }
  }

  /**
   * A new process records its wait time exactly once: on its first slice and
   * on none after it.
   */
  lemma WaitRecordedOnce(p: Process)
    requires WellFormed(p) && Unserved(p)
    ensures Slices(p)[0].first
    ensures forall i :: 1 <= i < |Slices(p)| ==> !Slices(p)[i].first
  {
    var p' := ServeSlice(p);
    if p'.remaining > 0.0 {
      DropOneQuantum(p.remaining);
      NoFirstAfterService(p');
      assert Slices(p)[1..] == Slices(p');
    }
  }

  // ------------------------------------------------- draining the deque

  function TotalRemaining(q: seq<Process>): real {
    if |q| == 0 then 0.0 else q[0].remaining + TotalRemaining(q[1..])
  }

  function TotalSlicesNeeded(q: seq<Process>): nat {
    if |q| == 0 then 0 else SlicesNeeded(q[0].remaining) + TotalSlicesNeeded(q[1..])
  }

  lemma {:induction false} TotalsOfAppend(q: seq<Process>, p: Process)
    ensures TotalRemaining(q + [p]) == TotalRemaining(q) + p.remaining
    ensures TotalSlicesNeeded(q + [p]) == TotalSlicesNeeded(q) + SlicesNeeded(p.remaining)
  {
    if |q| > 0 {
      assert (q + [p])[1..] == q[1..] + [p];
      TotalsOfAppend(q[1..], p);
    }
  }

  /**
   * The Round-Robin run loop with no further arrivals and no catastrophe:
   * pop the head, serve one slice, requeue it at the tail if it still owes
   * demand. It serves exactly the total demand of the deque, in
   * `Σ ⌈dᵢ / Quantum⌉` slices.
   */
  method DrainDeque(q0: seq<Process>) returns (served: real, slices: nat)
    requires AllWellFormed(q0)
    ensures served == TotalRemaining(q0)
    ensures slices == TotalSlicesNeeded(q0)
  {
    var q := q0;
    served := 0.0;
    slices := 0;
    while |q| > 0
      invariant AllWellFormed(q)
      invariant served + TotalRemaining(q) == TotalRemaining(q0)
      invariant slices + TotalSlicesNeeded(q) == TotalSlicesNeeded(q0)
      decreases TotalSlicesNeeded(q)
    {
      var p := q[0];
      var t := TimeToRun(p.remaining);
      var p' := ServeSlice(p);
      if p'.remaining > 0.0 {
        DropOneQuantum(p.remaining);
        var d := p.remaining;
        assert (-(d - Quantum)) / Quantum == -(d / Quantum) + 1.0;
        assert SlicesNeeded(p'.remaining) == SlicesNeeded(p.remaining) - 1;
        TotalsOfAppend(q[1..], p');
      } else if p.remaining > 0.0 {
        assert 0.0 < p.remaining / Quantum <= 1.0;
      }
      q := EndSlice(q[1..], p);
      served := served + t;
      slices := slices + 1;
    }
  }
}

=== FILE: run_properties.dfy ===
/**
 * Properties of whole runs: every sequence of enabled events starting from
 * the initial state.
 */
module RunProperties {
  import opened Processes
  import ReadyQueues
  import PP = PriorityPreemption
  import Faults
  import opened Schedulers
  import opened Simulation

  function Restorations(es: seq<Event>): nat {
    if |es| == 0 then 0 else (if es[0].Restore? then 1 else 0) + Restorations(es[1..])
  }

  function Failures(es: seq<Event>): nat {
    if |es| == 0 then 0 else (if es[0].Fail? then 1 else 0) + Failures(es[1..])
  }

  /** The sum of the repair durations drawn by the catastrophes of `es`. */
  function RepairsDrawn(es: seq<Event>): real {
    if |es| == 0 then 0.0 else (if es[0].Fail? then es[0].repair else 0.0) + RepairsDrawn(es[1..])
  }

  function Flag(b: bool): nat {
    if b then 1 else 0
  }

  /** The repair still in progress, if any. */
  function Pending(f: Faults.FaultState): real {
    if f.mode.Down? then f.mode.repair else 0.0
  }

  // ------------------------------------------------ recovery samples

  lemma StepRecoveryBound(s: Sim, e: Event)
    requires Inv(s) && Enabled(s, e)
    ensures var r := Step(s, e);
            |r.recoveryTimes| + Flag(r.sched.recovering)
              <= |s.recoveryTimes| + Flag(s.sched.recovering) + (if e.Restore? then 1 else 0)
  {
    match e
    case Arrive(at, burst, priority) =>
      assert Step(s, e).sched.recovering == s.sched.recovering;
    case Dispatch(at, choice) =>
      assert Step(s, e).sched.recovering == s.sched.recovering;
    case Finish =>
      assert Step(s, e).sched.recovering == s.sched.recovering;
    case Fail(at, repair) =>
    case Restore =>
    case Check(at) =>
  }

  lemma {:induction false} RecoveryBound(s: Sim, es: seq<Event>)
    requires Inv(s) && Run(s, es).Some?
    ensures var t := Run(s, es).value;
            |t.recoveryTimes| + Flag(t.sched.recovering)
              <= |s.recoveryTimes| + Flag(s.sched.recovering) + Restorations(es)
    decreases |es|
  {
    if |es| > 0 {
      StepRecoveryBound(s, es[0]);
      RecoveryBound(Step(s, es[0]), es[1..]);
    }
  }

  /**
   * At most one recovery time is recorded per restoration: a run records no
   * more recovery samples than it has restorations, and none at all if the
   * system never comes back from a catastrophe.
   */
  lemma AtMostOneSamplePerRestoration(policy: Policy, es: seq<Event>)
    requires Run(Init(policy), es).Some?
    ensures |Run(Init(policy), es).value.recoveryTimes| <= Restorations(es)
  {
    RecoveryBound(Init(policy), es);
  }

  // ------------------------------------------------------- downtime

  /** Downtime plus the repair in progress grows by exactly the repairs drawn. */
  lemma {:induction false} DowntimeAccounting(s: Sim, es: seq<Event>)
    requires Inv(s) && Run(s, es).Some?
    ensures Run(s, es).value.fault.totalDowntime + Pending(Run(s, es).value.fault)
              == s.fault.totalDowntime + Pending(s.fault) + RepairsDrawn(es)
    decreases |es|
  {
    if |es| > 0 {
      DowntimeAccounting(Step(s, es[0]), es[1..]);
    }
  }

  /** Failures and restorations alternate: each restoration ends the outage of one failure. */
  lemma {:induction false} FailuresAndRestorationsAlternate(s: Sim, es: seq<Event>)
    requires Inv(s) && Run(s, es).Some?
    ensures Restorations(es) + Flag(Run(s, es).value.fault.mode.Down?) == Flag(s.fault.mode.Down?) + Failures(es)
    decreases |es|
  {
    if |es| > 0 {
      FailuresAndRestorationsAlternate(Step(s, es[0]), es[1..]);
    }
  }

  /**
   * Downtime is exactly the repair time of the catastrophes whose repair has
   * ended: all drawn repairs but the one still in progress.
   */
  lemma DowntimeIsCompletedRepairs(policy: Policy, es: seq<Event>)
    requires Run(Init(policy), es).Some?
    ensures var t := Run(Init(policy), es).value;
            t.fault.totalDowntime == RepairsDrawn(es) - Pending(t.fault)
  {
    DowntimeAccounting(Init(policy), es);
  }

  /**
   * Availability at the horizon of a run lies in [0, 100]: recorded downtime
   * never exceeds the time elapsed.
   */
  lemma AvailabilityWithinBounds(policy: Policy, es: seq<Event>, horizon: real)
    requires Run(Init(policy), es).Some?
    requires horizon > 0.0 && Run(Init(policy), es).value.now <= horizon
    ensures 0.0 <= Faults.Availability(horizon, Run(Init(policy), es).value.fault.totalDowntime) <= 100.0
  {
  }

  /** Downtime only grows when a repair ends: without a restoration it stays as it was. */
  lemma {:induction false} NoRestoreNoDowntime(s: Sim, es: seq<Event>)
    requires Inv(s) && Run(s, es).Some? && Restorations(es) == 0
    ensures Run(s, es).value.fault.totalDowntime == s.fault.totalDowntime
    decreases |es|
  {
    if |es| > 0 {
      NoRestoreNoDowntime(Step(s, es[0]), es[1..]);
    }
  }

  /**
   * The availability reported at the end of a run, computed over the fixed
   * horizon `SimDuration`, lies in [0, 100] for every run that stays within
   * that horizon.
   */
  lemma ReportedAvailabilityWithinBounds(policy: Policy, es: seq<Event>)
    requires Run(Init(policy), es).Some? && Run(Init(policy), es).value.now <= Faults.SimDuration
    ensures 0.0 <= Faults.Availability(Faults.SimDuration, Run(Init(policy), es).value.fault.totalDowntime) <= 100.0
  {
    AvailabilityWithinBounds(policy, es, Faults.SimDuration);
  }

  /**
   * A run in which no repair has completed is fully available, even if a
   * catastrophe is still under repair at its end: downtime is only charged
   * when the system comes back.
   */
  lemma NoRepairFullAvailability(policy: Policy, es: seq<Event>, horizon: real)
    requires Run(Init(policy), es).Some? && Restorations(es) == 0 && horizon > 0.0
    ensures Run(Init(policy), es).value.fault.totalDowntime == 0.0
    ensures Faults.Availability(horizon, Run(Init(policy), es).value.fault.totalDowntime) == 100.0
  {
    NoRestoreNoDowntime(Init(policy), es);
  }

  /**
   * A run without catastrophes is fully available and records no recovery
   * time.
   */
  lemma NoFailureFullAvailability(policy: Policy, es: seq<Event>, horizon: real)
    requires Run(Init(policy), es).Some? && Failures(es) == 0
    requires horizon > 0.0
    ensures var t := Run(Init(policy), es).value;
            && t.fault.totalDowntime == 0.0
            && t.recoveryTimes == []
            && Faults.Availability(horizon, t.fault.totalDowntime) == 100.0
  {
    DowntimeAccounting(Init(policy), es);
    FailuresAndRestorationsAlternate(Init(policy), es);
    RecoveryBound(Init(policy), es);
    assert RepairsDrawn(es) == 0.0 by {
      NoFailureNoRepair(es);
    }
  }

  lemma {:induction false} NoFailureNoRepair(es: seq<Event>)
    requires Failures(es) == 0
    ensures RepairsDrawn(es) == 0.0
  {
    if |es| > 0 {
      NoFailureNoRepair(es[1..]);
    }
  }

  /**
   * One catastrophe at `at` with repair `repair`, repaired within the run:
   * downtime is exactly `repair` and availability at the horizon is
   * `(horizon - repair) / horizon * 100`.
   */
  lemma SingleCatastrophe(policy: Policy, es: seq<Event>, at: real, repair: real, horizon: real)
    requires Run(Init(policy), es).Some?
    requires Failures(es) == 1 && Restorations(es) == 1
    requires exists i :: 0 <= i < |es| && es[i] == Fail(at, repair)
    requires horizon > 0.0
    ensures var t := Run(Init(policy), es).value;
            && t.fault.totalDowntime == repair
            && Faults.Availability(horizon, t.fault.totalDowntime) * horizon == 100.0 * (horizon - repair)
  {
    var i :| 0 <= i < |es| && es[i] == Fail(at, repair);
    OnlyFailure(es, i);
    CompletedRepairs(policy, es);
  }

  /** When every catastrophe of a run has been repaired, downtime is all the repairs drawn. */
  lemma CompletedRepairs(policy: Policy, es: seq<Event>)
    requires Run(Init(policy), es).Some? && Failures(es) == Restorations(es)
    ensures var t := Run(Init(policy), es).value;
            t.fault.mode.Up? && t.fault.totalDowntime == RepairsDrawn(es)
  {
    DowntimeAccounting(Init(policy), es);
    FailuresAndRestorationsAlternate(Init(policy), es);
  }

  lemma {:induction false} FailureCounted(es: seq<Event>, i: nat)
    requires i < |es| && es[i].Fail?
    ensures Failures(es) >= 1
  {
    if i > 0 {
      FailureCounted(es[1..], i - 1);
    }
  }

  lemma {:induction false} OnlyFailure(es: seq<Event>, i: nat)
    requires i < |es| && es[i].Fail? && Failures(es) == 1
    ensures RepairsDrawn(es) == es[i].repair
  {
    if i == 0 {
      NoFailureNoRepair(es[1..]);
    } else {
      FailureCounted(es[1..], i - 1);
      OnlyFailure(es[1..], i - 1);
    }
  }

  // ---------------------------------------------------------- waits

  predicate Drained(s: Scheduler) {
    s.ready == [] && s.requests == [] && s.CpuIdle()
  }

  /** Without arrivals nothing is ever queued, so no wait time is ever recorded. */
  lemma {:induction false} NoArrivalNoWaits(s: Sim, es: seq<Event>)
    requires Inv(s) && Run(s, es).Some? && Drained(s.sched)
    requires forall i :: 0 <= i < |es| ==> !es[i].Arrive?
    ensures Run(s, es).value.waitTimes == s.waitTimes
    ensures Drained(Run(s, es).value.sched)
    decreases |es|
  {
    if |es| > 0 {
      var r := Step(s, es[0]);
      assert Drained(r.sched) && r.waitTimes == s.waitTimes;
      NoArrivalNoWaits(r, es[1..]);
    }
  }

  /**
   * Under FCFS, SJF and Round-Robin the scheduler is drained at the instant
   * of restoration: the catastrophe emptied it and nothing is admitted while
   * the system is down. A check at that instant closes the window without a
   * sample; arrivals before the first check keep it open (see
   * `BusyCheckKeepsWindowOpen`).
   */
  lemma DrainedAtRestoration(s: Sim)
    requires Inv(s) && Enabled(s, Restore) && s.sched.policy != PreemptivePriority
    ensures var r := Step(s, Restore);
            && Drained(r.sched) && r.sched.recovering
            && Enabled(r, Check(r.now))
            && Step(r, Check(r.now)).recoveryTimes == r.recoveryTimes
            && !Step(r, Check(r.now)).sched.recovering
  {
  }

  /**
   * A recovery check that finds work queued or the CPU busy records no
   * recovery time and leaves the window open, however long it has been.
   */
  lemma BusyCheckKeepsWindowOpen(s: Sim, at: real)
    requires Inv(s) && Enabled(s, Check(at)) && s.sched.recovering
    requires s.sched.ready != [] || !s.sched.CpuIdle()
    ensures var r := Step(s, Check(at));
            r.sched.recovering && r.recoveryTimes == s.recoveryTimes && r.now == at
  {
  }

  /**
   * With no arrivals and no catastrophes, a run of any length records no
   * wait time and no recovery time, and the system is fully available.
   */
  lemma IdleRun(policy: Policy, es: seq<Event>, horizon: real)
    requires Run(Init(policy), es).Some? && horizon > 0.0
    requires forall i :: 0 <= i < |es| ==> !es[i].Arrive? && !es[i].Fail?
    ensures var t := Run(Init(policy), es).value;
            && t.waitTimes == [] && t.recoveryTimes == []
            && Faults.Availability(horizon, t.fault.totalDowntime) == 100.0
  {
    NoArrivalNoWaits(Init(policy), es);
    assert Failures(es) == 0 by {
      NoFailEvents(es);
    }
    NoFailureFullAvailability(policy, es, horizon);
  }

  lemma {:induction false} NoFailEvents(es: seq<Event>)
    requires forall i :: 0 <= i < |es| ==> !es[i].Fail?
    ensures Failures(es) == 0
  {
    if |es| > 0 {
      NoFailEvents(es[1..]);
    }
  }

  // ------------------------------------------------- remaining demand

  /** `p` is held by the scheduler: queued, waiting for the CPU, or holding it. */
  predicate Holds(s: Scheduler, p: Process) {
    p in s.ready || p in s.requests || (s.running.Some? && s.running.value.proc == p)
  }

  /** `p'` is a process `s` held, possibly charged for more service since. */
  ghost predicate ServedFrom(s: Scheduler, p': Process) {
    exists p :: Holds(s, p) && SameProcess(p, p') && p'.remaining <= p.remaining
  }

  /**
   * Remaining demand never increases: every process a scheduler holds after
   * an event is one it held before, with no more demand owed, or the new
   * arrival, which owes its whole demand. Together with `Inv` (every held
   * process is well formed) it never goes negative either.
   */
  lemma RemainingNeverIncreases(s: Sim, e: Event)
    requires Inv(s) && Enabled(s, e)
    ensures forall p' :: Holds(Step(s, e).sched, p') ==>
              || ServedFrom(s.sched, p')
              || (e.Arrive? && p'.pid == s.pidCounter + 1 && Unserved(p'))
  {
    var r := Step(s, e).sched;
    forall p' | Holds(r, p')
      ensures || ServedFrom(s.sched, p')
              || (e.Arrive? && p'.pid == s.pidCounter + 1 && Unserved(p'))
    {
      match e
      case Arrive(at, burst, priority) =>
        ArriveCharges(s, at, burst, priority, p');
      case Fail(at, repair) =>
        assert Holds(s.sched, p');
      case Restore =>
        assert Holds(s.sched, p');
      case Check(at) =>
        assert Holds(s.sched, p');
      case Dispatch(at, choice) =>
        var o := Schedulers.Dispatch(s.sched, at, choice);
        assert p' in multiset(s.sched.ready);
        assert Holds(s.sched, p');
      case Finish =>
        FinishCharges(s, p');
    }
  }

  lemma ArriveCharges(s: Sim, at: real, burst: real, priority: int, p': Process)
    requires Inv(s) && Enabled(s, Arrive(at, burst, priority))
    requires Holds(Step(s, Arrive(at, burst, priority)).sched, p')
    ensures || ServedFrom(s.sched, p')
            || (p'.pid == s.pidCounter + 1 && Unserved(p'))
  {
    InvLater(s, at);
    var p := NewProcess(s.pidCounter + 1, at, burst, priority);
    var sc := s.sched;
    var o := AddProcess(sc, p, at);
    assert Step(s, Arrive(at, burst, priority)).sched == o.sched;
    if p' == p {
    } else if sc.policy == PreemptivePriority && sc.running.Some? && PP.Outranks(p, sc.running.value.proc) {
      var h := sc.running.value;
      var h' := PP.Preempt(h, at);
      var refreshed := ReadyQueues.Refresh(sc.ready, h');
      if p' in refreshed {
        var i :| 0 <= i < |refreshed| && refreshed[i] == p';
        if sc.ready[i].pid == h'.pid {
          assert Holds(sc, h.proc);
        } else {
          assert Holds(sc, sc.ready[i]);
        }
      }
    } else {
      assert Holds(sc, p');
    }
  }

  lemma FinishCharges(s: Sim, p': Process)
    requires Inv(s) && Enabled(s, Finish)
    requires Holds(Step(s, Finish).sched, p')
    ensures ServedFrom(s.sched, p')
  {
    var sc := s.sched;
    var t := Due(sc);
    InvLater(s, t);
    var o := Schedulers.Finish(sc);
    assert Step(s, Finish).sched == o.sched;
    var h := sc.running.value.proc;
    match sc.policy
    case Fcfs =>
      assert Holds(sc, p');
    case Sjf =>
      assert Holds(sc, p');
    case RoundRobin =>
      if p' in sc.ready {
        assert Holds(sc, p');
      } else {
        assert Holds(sc, h);
      }
    case PreemptivePriority =>
      ReleaseKeepsHeld(sc, t, p');
  }

  /** Releasing the PP CPU only forgets processes: whatever it still holds was held before. */
  lemma ReleaseKeepsHeld(sc: Scheduler, t: real, p': Process)
    requires sc.policy == PreemptivePriority && sc.running.Some? && Valid(sc, t)
    requires Holds(Release(sc, t).sched, p')
    ensures Holds(sc, p')
  {
    var o := Release(sc, t);
    if p' in o.sched.ready {
      assert p' in multiset(sc.ready);
    } else if sc.requests != [] {
      var k := PP.NextGrant(sc.requests);
      if p' in o.sched.requests {
        assert p' in sc.requests[..k] + sc.requests[k + 1..];
      }
    }
  }
}

=== FILE: schedulers.dfy ===
/**
 * The four scheduling policies as one closed set of variants over a common
 * state: the ready structure, the process holding the CPU, the requests
 * waiting for a Preemptive-Priority CPU, and the recovery flag. Each
 * operation of the schedulers is a pure transition; a transition that
 * records a wait time or a recovery time returns it as its sample.
 */
module Schedulers {
  import opened Wrappers
  import opened Processes
  import ReadyQueues
  import RR = RoundRobinSlices
  import PP = PriorityPreemption
  import Faults

  datatype Policy = Fcfs | Sjf | RoundRobin | PreemptivePriority

  datatype Scheduler = Scheduler(
    policy: Policy,
    ready: seq<Process>,     // Store, PriorityStore items, or deque
    running: Option<Slot>,   // the process holding the CPU, if any
    requests: seq<Process>,  // Preemptive-Priority requests not yet granted
    recovering: bool)        // a restoration has not yet been followed by a drained system
  {
    predicate CpuIdle() {
      running.None?
    }
  }

  /** A scheduler's new state, and the wait or recovery time the transition recorded, if any. */
  datatype Outcome = Outcome(sched: Scheduler, sample: Option<real>)

  /** The scheduler after a catastrophe, and the processes whose activities were interrupted. */
  datatype Catastrophe = Catastrophe(sched: Scheduler, interrupted: seq<Process>)

  function Create(policy: Policy): (s: Scheduler)
    ensures s.policy == policy && s.ready == [] && s.requests == []
    ensures s.CpuIdle() && !s.recovering
  {
    Scheduler(policy, [], None, [], false)
  }

  /** How long the holder keeps the CPU once it is granted, unless something interrupts it. */
  function ServiceLength(policy: Policy, p: Process): (t: real)
    ensures WellFormed(p) ==> 0.0 <= t <= p.initial
    ensures WellFormed(p) && policy == RoundRobin ==> t <= RR.Quantum && t <= p.remaining
    ensures Unserved(p) && policy != RoundRobin ==> t == p.initial
    ensures policy == RoundRobin ==> t == RR.Quantum || t == p.remaining
    ensures policy == PreemptivePriority ==> t == p.remaining
  {
    match policy
    case Fcfs => p.initial
    case Sjf => p.initial
    case RoundRobin => RR.TimeToRun(p.remaining)
    case PreemptivePriority => p.remaining
  }

  /** When the current service ends if nothing interrupts it. */
  function Due(s: Scheduler): real
    requires s.running.Some?
  {
    s.running.value.since + ServiceLength(s.policy, s.running.value.proc)
  }

  /** What holds of a scheduler at every instant `now` of a run. */
  predicate Valid(s: Scheduler, now: real) {
    && AllAdmitted(s.ready, now)
    && AllAdmitted(s.requests, now)
    && (s.running.Some? ==>
          && WellFormed(s.running.value.proc)
          && s.running.value.proc.arrival <= s.running.value.since <= now <= Due(s)
          && PP.HolderOutranksWaiters(s.running.value.proc, s.requests))
    && (s.policy != PreemptivePriority ==> s.requests == [])
    && (s.running.None? ==> s.requests == [])
  }

  /** Time passing up to the end of the current service keeps a scheduler valid. */
  lemma ValidLater(s: Scheduler, now: real, later: real)
    requires Valid(s, now) && now <= later
    requires s.running.Some? ==> later <= Due(s)
    ensures Valid(s, later)
  {
  }

  // ------------------------------------------------------------ admission

  /**
   * `add_process` at time `now` for a process that has just arrived.
   * FCFS, SJF and Round-Robin put it into the ready structure. Under
   * Preemptive-Priority it is also tracked in the deque and requests the CPU
   * at once: it is granted a free CPU, preempts a holder it strictly
   * outranks (which is charged for the time it ran and drops out), or waits.
   */
  function AddProcess(s: Scheduler, p: Process, now: real): (r: Outcome)
    requires Valid(s, now) && WellFormed(p) && p.arrival == now
    requires s.running.Some? ==> now <= Due(s)
    ensures Valid(r.sched, now)
    ensures r.sched.policy == s.policy && r.sched.recovering == s.recovering
    ensures s.policy != PreemptivePriority ==>
              r.sched == s.(ready := s.ready + [p]) && r.sample.None?
    ensures s.policy == PreemptivePriority && s.CpuIdle() ==>
              && r.sched.running == Some(Slot(p, now))
              && r.sched.ready == s.ready + [p]
              && r.sched.requests == s.requests
              && r.sample == Some(0.0)
    ensures s.policy == PreemptivePriority && s.running.Some? && PP.Outranks(p, s.running.value.proc) ==>
              && r.sched.running == Some(Slot(p, now))
              && r.sched.ready == ReadyQueues.Refresh(s.ready, PP.Preempt(s.running.value, now)) + [p]
              && r.sched.requests == s.requests
              && r.sample == Some(0.0)
    ensures s.policy == PreemptivePriority && s.running.Some? && !PP.Outranks(p, s.running.value.proc) ==>
              && r.sched.running == s.running
              && r.sched.ready == s.ready + [p]
              && r.sched.requests == s.requests + [p]
              && r.sample.None?
  {
    if s.policy != PreemptivePriority then
      Outcome(s.(ready := ReadyQueues.Put(s.ready, p)), None)
    else if s.running.None? then
      Outcome(s.(ready := s.ready + [p], running := Some(Slot(p, now))), Some(now - p.arrival))
    else
      var h := s.running.value;
      if PP.Outranks(p, h.proc) then
        var h' := PP.Preempt(h, now);
        var ready := ReadyQueues.Refresh(s.ready, h') + [p];
        assert AllAdmitted(ready, now) by {
          forall i | 0 <= i < |ready|
            ensures WellFormed(ready[i]) && ready[i].arrival <= now
          {
            if i < |s.ready| && s.ready[i].pid == h'.pid {
              assert ready[i] == h';
            }
          }
        }
        Outcome(s.(ready := ready, running := Some(Slot(p, now))), Some(now - p.arrival))
      else
        Outcome(s.(ready := s.ready + [p], requests := s.requests + [p]), None)
  }

  // ------------------------------------------------------------- dispatch

  /** The process the run loop of FCFS, SJF or Round-Robin takes, and the ready structure behind it. */
  function TakeNext(s: Scheduler, choice: nat): (r: (Process, seq<Process>))
    requires s.policy != PreemptivePriority && |s.ready| > 0
    requires s.policy == Sjf ==> ReadyQueues.IsShortest(s.ready, choice)
    ensures multiset(r.1) + multiset{r.0} == multiset(s.ready)
    ensures s.policy != Sjf ==> r.0 == s.ready[0] && r.1 == s.ready[1..]
    ensures s.policy == Sjf ==> r.0 == s.ready[choice] && forall x :: x in s.ready ==> r.0.initial <= x.initial
    ensures s.policy == Sjf ==> r.1 == s.ready[..choice] + s.ready[choice + 1..]
  {
    if s.policy == Sjf then ReadyQueues.TakeAt(s.ready, choice)
    else
      assert s.ready == [s.ready[0]] + s.ready[1..];
      ReadyQueues.Take(s.ready)
  }

  /**
   * The run loop of FCFS, SJF or Round-Robin takes the next process at
   * `now` and is granted the CPU at once. FCFS and Round-Robin take the
   * head; SJF takes the item `choice`, which must have a minimal initial
   * demand. FCFS and SJF record a wait time on every grant, Round-Robin only
   * on a process's first slice.
   */
  function Dispatch(s: Scheduler, now: real, choice: nat): (r: Outcome)
    requires Valid(s, now)
    requires s.policy != PreemptivePriority && s.CpuIdle() && |s.ready| > 0
    requires s.policy == Sjf ==> ReadyQueues.IsShortest(s.ready, choice)
    ensures Valid(r.sched, now)
    ensures r.sched.policy == s.policy && r.sched.recovering == s.recovering
    ensures r.sched.running.Some? && r.sched.running.value.since == now
    ensures var p := r.sched.running.value.proc;
            && (p, r.sched.ready) == TakeNext(s, choice)
            && (r.sample.Some? <==> (s.policy != RoundRobin || p.remaining == p.initial))
            && (r.sample.Some? ==> r.sample.value == now - p.arrival >= 0.0)
  {
    var (p, rest) := TakeNext(s, choice);
    assert p in multiset(s.ready);
    assert forall x :: x in rest ==> x in multiset(s.ready);
    AdmittedPart(s.ready, rest, now);
    var wait := if s.policy != RoundRobin || Unserved(p) then Some(now - p.arrival) else None;
    Outcome(s.(ready := rest, running := Some(Slot(p, now))), wait)
  }

  // ------------------------------------------------------------ service end

  /**
   * The CPU of a Preemptive-Priority scheduler is free at `t`: it passes to
   * the most urgent waiting request, the earliest among equals, whose wait
   * time is recorded.
   */
  function GrantNext(s: Scheduler, t: real): (r: Outcome)
    requires s.policy == PreemptivePriority && s.requests != []
    requires AllAdmitted(s.ready, t) && AllAdmitted(s.requests, t)
    ensures Valid(r.sched, t)
    ensures r.sched.policy == s.policy && r.sched.recovering == s.recovering && r.sched.ready == s.ready
    ensures var k := PP.NextGrant(s.requests);
            && r.sched.running == Some(Slot(s.requests[k], t))
            && r.sched.requests == s.requests[..k] + s.requests[k + 1..]
            && r.sample == Some(t - s.requests[k].arrival)
            && r.sample.value >= 0.0
  {
    var k := PP.NextGrant(s.requests);
    var g := s.requests[k];
    var rest := s.requests[..k] + s.requests[k + 1..];
    PP.GrantOutranksRest(s.requests, k);
    assert forall x :: x in rest ==> x in s.requests;
    AdmittedPart(s.requests, rest, t);
    var r := s.(running := Some(Slot(g, t)), requests := rest);
    assert WellFormed(g) && g.arrival <= t;
    assert Due(r) >= t;
    Outcome(r, Some(t - g.arrival))
  }

  /**
   * A Preemptive-Priority process completes at `t`: it leaves the tracking
   * deque, and the CPU is granted to the next request if there is one.
   */
  function Release(s: Scheduler, t: real): (r: Outcome)
    requires s.policy == PreemptivePriority && s.running.Some? && Valid(s, t)
    ensures Valid(r.sched, t)
    ensures r.sched.policy == s.policy && r.sched.recovering == s.recovering
    ensures r.sched.ready == ReadyQueues.RemovePid(s.ready, s.running.value.proc.pid)
    ensures r.sched.CpuIdle() <==> s.requests == []
    ensures r.sample.Some? <==> s.requests != []
    ensures r.sample.Some? ==> r.sample.value >= 0.0
    ensures s.requests != [] ==>
              r == GrantNext(s.(ready := ReadyQueues.RemovePid(s.ready, s.running.value.proc.pid), running := None), t)
  {
    var ready := ReadyQueues.RemovePid(s.ready, s.running.value.proc.pid);
    assert forall x :: x in ready ==> x in multiset(s.ready);
    AdmittedPart(s.ready, ready, t);
    var freed := s.(ready := ready, running := None);
    if s.requests == [] then Outcome(freed, None) else GrantNext(freed, t)
  }

  /**
   * The current service ends at its due time. FCFS and SJF processes
   * complete. A Round-Robin slice is charged and the process goes back to
   * the tail iff it still owes demand. A Preemptive-Priority process
   * completes and the CPU is released to the next request.
   */
  function Finish(s: Scheduler): (r: Outcome)
    requires s.running.Some? && Valid(s, Due(s))
    ensures Valid(r.sched, Due(s))
    ensures r.sched.policy == s.policy && r.sched.recovering == s.recovering
    ensures s.policy in {Fcfs, Sjf} ==> r.sched == s.(running := None) && r.sample.None?
    ensures s.policy == RoundRobin ==>
              r.sched == s.(running := None, ready := RR.EndSlice(s.ready, s.running.value.proc))
              && r.sample.None?
    ensures s.policy == PreemptivePriority ==> r == Release(s, Due(s))
    ensures r.sample.Some? ==> r.sample.value >= 0.0
    ensures s.policy == PreemptivePriority && s.ready == [] && s.requests == [] ==>
              r.sched.ready == [] && r.sched.requests == [] && r.sched.CpuIdle()
  {
    var p := s.running.value.proc;
    match s.policy
    case Fcfs => Outcome(s.(running := None), None)
    case Sjf => Outcome(s.(running := None), None)
    case RoundRobin =>
      assert p.arrival <= Due(s);
      Outcome(s.(running := None, ready := RR.EndSlice(s.ready, p)), None)
    case PreemptivePriority => Release(s, Due(s))
  }

  // ----------------------------------------------------------- catastrophe

  /**
   * `handle_catastrophe`: every queued process is lost and the recovery
   * flag is cleared. Under FCFS, SJF and Round-Robin the service in progress
   * is interrupted and abandoned. Under Preemptive-Priority the requests
   * still waiting for the CPU are interrupted, but a process already granted
   * the CPU keeps it. No process is altered.
   */
  function HandleCatastrophe(s: Scheduler): (r: Catastrophe)
    ensures r.sched.policy == s.policy
    ensures r.sched.ready == [] && r.sched.requests == [] && !r.sched.recovering
    ensures s.policy == PreemptivePriority ==>
              r.sched.running == s.running && r.interrupted == s.requests
    ensures s.policy != PreemptivePriority ==>
              && r.sched.CpuIdle()
              && r.interrupted == (if s.running.Some? then [s.running.value.proc] else [])
  {
    if s.policy == PreemptivePriority then
      Catastrophe(s.(ready := [], requests := [], recovering := false), s.requests)
    else
      var interrupted := if s.running.Some? then [s.running.value.proc] else [];
      Catastrophe(s.(ready := [], running := None, requests := [], recovering := false), interrupted)
  }

  /** The scheduler left behind by a catastrophe is valid whenever the one before it was. */
  lemma CatastropheKeepsValid(s: Scheduler, now: real)
    requires Valid(s, now)
    ensures Valid(HandleCatastrophe(s).sched, now)
  {
  }

  // ---------------------------------------------------------- recovery

  /**
   * The recovery check at the top of every run loop. While recovering, the
   * first time the CPU is idle and the ready structure is empty, the
   * recovery window closes: its length `now - lastRestoration` is recorded
   * unless it is at most the float-noise threshold, and the flag is cleared.
   * Otherwise nothing changes.
   */
  function RecoveryCheck(s: Scheduler, now: real, lastRestoration: real): (r: Outcome)
    ensures r.sched.policy == s.policy && r.sched.ready == s.ready
    ensures r.sched.running == s.running && r.sched.requests == s.requests
    ensures r.sched.recovering <==> s.recovering && !(s.CpuIdle() && s.ready == [])
    ensures r.sample.Some? <==>
              s.recovering && s.CpuIdle() && s.ready == [] && now - lastRestoration > Faults.RecoveryThreshold
    ensures r.sample.Some? ==> r.sample.value == now - lastRestoration
  {
    if s.recovering && s.CpuIdle() && |s.ready| == 0 then
      var window := now - lastRestoration;
      Outcome(s.(recovering := false), if window > Faults.RecoveryThreshold then Some(window) else None)
    else
      Outcome(s, None)
  }
}

=== FILE: simulation.dfy ===
/**
 * The whole simulation as time-stamped transitions. The state holds the
 * clock, the generator's pid counter, the fault injector, the active
 * scheduler and the two metric lists. Each event is one thing that happens
 * at an instant: an arrival, a catastrophe, the end of a repair, a run loop
 * taking work, the end of a service, or a run loop's recovery check. The
 * random draws are carried by the events, and an event is enabled only if
 * the clock may move to its time without skipping a due repair end or
 * service end.
 */
module Simulation {
  import opened Wrappers
  import opened Processes
  import ReadyQueues
  import Faults
  import opened Schedulers

  datatype Sim = Sim(
    now: real,                  // the virtual clock
    pidCounter: nat,            // ids handed out so far
    fault: Faults.FaultState,
    sched: Scheduler,
    waitTimes: seq<real>,       // one sample per grant that records a wait
    recoveryTimes: seq<real>)   // one sample per closed recovery window

  datatype Event =
    | Arrive(at: real, burst: real, priority: int)   // a drawn arrival is admitted
    | Fail(at: real, repair: real)                   // the time to failure elapses
    | Restore                                        // the repair in progress ends
    | Dispatch(at: real, choice: nat)                // FCFS/SJF/RR run loop takes work
    | Finish                                         // the service on the CPU ends
    | Check(at: real)                                // a run loop's recovery check

  /** What holds at every instant of a run. */
  predicate Inv(s: Sim) {
    && Faults.Consistent(s.fault, s.now)
    && Valid(s.sched, s.now)
    && (!s.fault.Operational() ==>
          && s.sched.ready == [] && s.sched.requests == [] && !s.sched.recovering
          && (s.sched.policy != PreemptivePriority ==> s.sched.CpuIdle()))
    && (forall i :: 0 <= i < |s.waitTimes| ==> s.waitTimes[i] >= 0.0)
    && (forall i :: 0 <= i < |s.recoveryTimes| ==> s.recoveryTimes[i] > Faults.RecoveryThreshold)
  }

  /** A run starts at time 0, operational, with nothing queued and nothing measured. */
  function Init(policy: Policy): (s: Sim)
    ensures Inv(s)
    ensures s.now == 0.0 && s.pidCounter == 0
    ensures s.sched == Create(policy) && s.fault == Faults.Initial()
    ensures s.sched.policy == policy && s.fault.Operational()
    ensures s.waitTimes == [] && s.recoveryTimes == [] && s.fault.totalDowntime == 0.0
  {
    Sim(0.0, 0, Faults.Initial(), Create(policy), [], [])
  }

  /** No repair end and no service end is due before `t`: the clock may move to `t`. */
  predicate CanAdvanceTo(s: Sim, t: real) {
    && s.now <= t
    && (s.fault.mode.Down? ==> t <= Faults.RestorationTime(s.fault))
    && (s.sched.running.Some? ==> t <= Due(s.sched))
  }

  predicate Enabled(s: Sim, e: Event) {
    match e
    case Arrive(at, burst, priority) =>
      && s.fault.Operational() && CanAdvanceTo(s, at)
      && burst >= 0.0 && MinPriority <= priority <= MaxPriority
    case Fail(at, repair) =>
      s.fault.Operational() && CanAdvanceTo(s, at) && repair >= 0.0
    case Restore =>
      s.fault.mode.Down? && CanAdvanceTo(s, Faults.RestorationTime(s.fault))
    case Dispatch(at, choice) =>
      && s.fault.Operational() && CanAdvanceTo(s, at)
      && s.sched.policy != PreemptivePriority && s.sched.CpuIdle() && |s.sched.ready| > 0
      && (s.sched.policy == Sjf ==> ReadyQueues.IsShortest(s.sched.ready, choice))
    case Finish =>
      s.sched.running.Some? && CanAdvanceTo(s, Due(s.sched))
    case Check(at) =>
      s.fault.Operational() && CanAdvanceTo(s, at)
  }

  function Record(samples: seq<real>, sample: Option<real>): (r: seq<real>)
    ensures samples <= r
    ensures sample.None? ==> r == samples
    ensures sample.Some? ==> r == samples + [sample.value]
  {
    if sample.Some? then samples + [sample.value] else samples
  }

  lemma InvLater(s: Sim, t: real)
    requires Inv(s) && CanAdvanceTo(s, t)
    ensures Faults.Consistent(s.fault, t) && Valid(s.sched, t)
  {
    ValidLater(s.sched, s.now, t);
  }

  // ------------------------------------------------------------- events

  /**
   * The generator admits a process drawn with demand `burst` and priority
   * `priority` while the system is operational; its id is the next value of
   * the counter.
   */
  function StepArrive(s: Sim, at: real, burst: real, priority: int): (r: Sim)
    requires Inv(s) && Enabled(s, Arrive(at, burst, priority))
    ensures Inv(r) && r.now == at
    ensures r.pidCounter == s.pidCounter + 1
    ensures r.fault == s.fault && r.recoveryTimes == s.recoveryTimes
    ensures var o := AddProcess(s.sched, NewProcess(s.pidCounter + 1, at, burst, priority), at);
            r.sched == o.sched && r.waitTimes == Record(s.waitTimes, o.sample)
  {
    InvLater(s, at);
    var p := NewProcess(s.pidCounter + 1, at, burst, priority);
    var o := AddProcess(s.sched, p, at);
    Sim(at, s.pidCounter + 1, s.fault, o.sched, Record(s.waitTimes, o.sample), s.recoveryTimes)
  }

  /** A catastrophe at `at`, repaired `repair` later: the scheduler loses its queued work. */
  function StepFail(s: Sim, at: real, repair: real): (r: Sim)
    requires Inv(s) && Enabled(s, Fail(at, repair))
    ensures Inv(r) && r.now == at
    ensures !r.fault.Operational() && Faults.RestorationTime(r.fault) == at + repair
    ensures r.fault.totalDowntime == s.fault.totalDowntime
    ensures r.sched == HandleCatastrophe(s.sched).sched && r.fault == Faults.InjectFault(s.fault, at, repair)
    ensures r.pidCounter == s.pidCounter
    ensures r.waitTimes == s.waitTimes && r.recoveryTimes == s.recoveryTimes
  {
    InvLater(s, at);
    CatastropheKeepsValid(s.sched, at);
    var f := Faults.InjectFault(s.fault, at, repair);
    s.(now := at, fault := f, sched := HandleCatastrophe(s.sched).sched)
  }

  /** The repair ends: the system is operational again and the scheduler starts recovering. */
  function StepRestore(s: Sim): (r: Sim)
    requires Inv(s) && Enabled(s, Restore)
    ensures Inv(r) && r.now == Faults.RestorationTime(s.fault)
    ensures r.fault.Operational()
    ensures r.fault.totalDowntime == s.fault.totalDowntime + s.fault.mode.repair
    ensures r.fault.lastRestoration == r.now
    ensures r.sched == s.sched.(recovering := true)
    ensures r.pidCounter == s.pidCounter
    ensures r.waitTimes == s.waitTimes && r.recoveryTimes == s.recoveryTimes
  {
    var t := Faults.RestorationTime(s.fault);
    InvLater(s, t);
    s.(now := t, fault := Faults.Restore(s.fault), sched := s.sched.(recovering := true))
  }

  /** The run loop of FCFS, SJF or Round-Robin takes work at `at`. */
  function StepDispatch(s: Sim, at: real, choice: nat): (r: Sim)
    requires Inv(s) && Enabled(s, Dispatch(at, choice))
    ensures Inv(r) && r.now == at
    ensures r.fault == s.fault && r.recoveryTimes == s.recoveryTimes && r.pidCounter == s.pidCounter
    ensures var o := Schedulers.Dispatch(s.sched, at, choice);
            r.sched == o.sched && r.waitTimes == Record(s.waitTimes, o.sample)
  {
    InvLater(s, at);
    var o := Schedulers.Dispatch(s.sched, at, choice);
    s.(now := at, sched := o.sched, waitTimes := Record(s.waitTimes, o.sample))
  }

  /** The service on the CPU reaches its due time. */
  function StepFinish(s: Sim): (r: Sim)
    requires Inv(s) && Enabled(s, Finish)
    ensures Inv(r) && r.now == Due(s.sched)
    ensures r.fault == s.fault && r.recoveryTimes == s.recoveryTimes && r.pidCounter == s.pidCounter
    ensures var o := Schedulers.Finish(s.sched);
            r.sched == o.sched && r.waitTimes == Record(s.waitTimes, o.sample)
  {
    var t := Due(s.sched);
    InvLater(s, t);
    var o := Schedulers.Finish(s.sched);
    var r := s.(now := t, sched := o.sched, waitTimes := Record(s.waitTimes, o.sample));
    assert !s.fault.Operational() ==> s.sched.policy == PreemptivePriority;
    assert forall i :: 0 <= i < |r.waitTimes| ==> r.waitTimes[i] >= 0.0;
    assert Faults.Consistent(r.fault, r.now) && Valid(r.sched, r.now);
    r
  }

  /** A run loop performs its recovery check at `at`. */
  function StepCheck(s: Sim, at: real): (r: Sim)
    requires Inv(s) && Enabled(s, Check(at))
    ensures Inv(r) && r.now == at
    ensures r.fault == s.fault && r.waitTimes == s.waitTimes && r.pidCounter == s.pidCounter
    ensures var o := RecoveryCheck(s.sched, at, s.fault.lastRestoration);
            r.sched == o.sched && r.recoveryTimes == Record(s.recoveryTimes, o.sample)
  {
    InvLater(s, at);
    var o := RecoveryCheck(s.sched, at, s.fault.lastRestoration);
    s.(now := at, sched := o.sched, recoveryTimes := Record(s.recoveryTimes, o.sample))
  }

  /**
   * One event. The clock never runs backwards, downtime never decreases,
   * and the metric lists are only ever appended to.
   */
  function Step(s: Sim, e: Event): (r: Sim)
    requires Inv(s) && Enabled(s, e)
    ensures Inv(r)
    ensures s.now <= r.now
    ensures s.fault.totalDowntime <= r.fault.totalDowntime
    ensures s.waitTimes <= r.waitTimes && s.recoveryTimes <= r.recoveryTimes
  {
    match e
    case Arrive(at, burst, priority) => StepArrive(s, at, burst, priority)
    case Fail(at, repair) => StepFail(s, at, repair)
    case Restore => StepRestore(s)
    case Dispatch(at, choice) => StepDispatch(s, at, choice)
    case Finish => StepFinish(s)
    case Check(at) => StepCheck(s, at)
  }

  /** Replays `es` from `s`; `None` if some event is not enabled when its turn comes. */
  function Run(s: Sim, es: seq<Event>): (r: Option<Sim>)
    requires Inv(s)
    ensures r.Some? ==> Inv(r.value)
    ensures r.Some? ==> s.now <= r.value.now && s.fault.totalDowntime <= r.value.fault.totalDowntime
    ensures r.Some? ==> s.waitTimes <= r.value.waitTimes && s.recoveryTimes <= r.value.recoveryTimes
    decreases |es|
  {
    if |es| == 0 then Some(s)
    else if Enabled(s, es[0]) then Run(Step(s, es[0]), es[1..])
    else None
  }
}

=== FILE: wrappers.dfy ===
/** Optional values: a step of the simulation may or may not record a sample. */
module Wrappers {

  datatype Option<+T> = None | Some(value: T)
}
